=== FILE: README.md ===
# Party Chaos match logic in Dafny

This project models the server side of a Party Chaos match. The game is a
Unity/Netcode party game; here each part is lifted out of the engine as a pure
transition function over immutable records:

- `GameSession` (`game_session.dfy`) is `GameSessionManager`. It holds the
  phase (`Lobby`, `LoadingRound`, `Countdown`, `Playing`, `Results`,
  `MatchOver`), the round counter and the ready set. It covers the ready RPC,
  the start check, the start of a match, the round-ended RPC and the delayed
  advance to the next round or back to the lobby.
- `RoundManager` (`round_manager.dfy`) is `RoundManager`. It holds the round
  timer and the alive set. It covers round spawn, the per-frame `Update`, which
  runs the two transitional phases in one call and then checks the end
  conditions, eliminations, and the two ways a round ends. The winner is the
  last one alive, or on timeout the alive row with strictly the most round
  points, with ties going to the earliest row.
- `ScoreManager` (`score_manager.dfy`) is the score ledger: an ordered list of
  `(ClientId, MatchPoints, RoundPoints)` rows. It covers the spawn-time
  initialisation, the lazy row on connect, the round-point reset, `AddPoints`
  and the round bonus.
- `PartyLevel` (`party_level.dfy`) is `PartyLevelController`. XP is clamped at
  zero, and two thresholds map it to level 1, 2 or 3.
- `MatchFlow` (`match_flow.dfy`) connects the four. It folds the callbacks the
  engine delivers into one `Step` over a `Server` record and proves an
  invariant that every admissible event preserves.
- `Basics` (`basics.dfy`) holds client ids, C# `int` arithmetic and `Option`.

C# `int` counters are `Int32` values. Unchecked `+=` is written out as `Wrap`,
the two's-complement wrap-around. This matters in two places: the
`int.MinValue` start value of the timeout-winner scan, and the XP clamp after
an overflowing sum. Scene loads and the `Invoke` of `AdvanceOrEndMatch` are
`Effect` values that an operation returns next to its new state. In
`MatchFlow` a scheduled advance is a pending counter, and the
`ResultsElapsed` event consumes it. The client list (`ConnectedClientsIds`),
the time elapsed in a frame and the inspector settings are parameters.

Some behaviours of the code are easy to miss. The model keeps each of them:

- The round counter is reset only when a match starts (`StartMatch`). After the
  last round the session is back in `Lobby` with the counter at
  `roundsPerMatch`, not 0. See `IndexKeptAfterMatch` and `ThreeRoundMatch`.
- A ready RPC edits the ready set in every phase. Only the start check is
  limited to the lobby. See `ReadyEditedInEveryPhase`.
- `AddPoints` accepts negative amounts, and the counters wrap around on
  overflow. So match points are the wrapped sum of everything awarded, not a
  non-decreasing total. See `MatchPointsAccumulate`.
- Client id 0 is the "no winner" value of both end paths. A round won by
  client 0 (the host's own client) pays nobody. See `HostLeaderPaysNobody`.
- A client that disconnects mid-round stays in the alive set. See
  `LeaverStaysAlive`.
- A round that has ended can pay its survivor again. After the results delay
  the session is loading the next round. Until that round spawns, the round
  manager still holds the old alive set. Its next frame ends the old round a
  second time, pays the bonus again and schedules one more advance. See
  `StaleRoundPaysAgain` and `StaleRoundExample`.
- The round manager lives in the round scene, so frames and eliminations do
  nothing while none exists: before the first round scene has spawned, and
  after the hub scene has been loaded. `MatchFlow` tracks this with the
  `spawned` flag of `Server`. Loading the next round scene keeps the old
  manager running until the new one spawns, which is what lets a stale round
  pay twice. See `FirstRoundWaitsForSpawn` and `HubHasNoRound`.

## Model

| member | source | states |
|---|---|---|
| Basics.Wrap | Assets/PartyChaos/_Scripts/Game/ScoreManager.cs:92-93 | an unchecked `int` sum lands in the 32-bit range and equals the exact sum whenever that sum is in range |
| Basics.WrapCongruent | Assets/PartyChaos/_Scripts/Game/ScoreManager.cs:92-93 | the wrapped value differs from the exact one by a multiple of 2^32 |
| Basics.WrapAddAbsorb | Assets/PartyChaos/_Scripts/Game/ScoreManager.cs:92-93 | adding to an already wrapped counter gives the same result as wrapping the exact running sum once |
| GameSession.OnClientDisconnected | Assets/PartyChaos/_Scripts/Game/GameSessionManager.cs:43-46 | a disconnect removes exactly the leaver from the ready set; every other id keeps its readiness, and phase and counter are untouched |
| GameSession.LoadRound | Assets/PartyChaos/_Scripts/Game/GameSessionManager.cs:79-83 | the session enters `LoadingRound`, keeps counter and ready set, and requests the round scene |
| GameSession.StartMatch | Assets/PartyChaos/_Scripts/Game/GameSessionManager.cs:73-77 | a match starts at round index 0 in `LoadingRound`, whatever the counter read before |
| GameSession.TryStartIfAllReady | Assets/PartyChaos/_Scripts/Game/GameSessionManager.cs:58-71 | a match starts if and only if the session is in the lobby, at least two clients are connected and every connected client is ready; otherwise nothing changes |
| GameSession.SetReady | Assets/PartyChaos/_Scripts/Game/GameSessionManager.cs:48-56 | the sender is ready afterwards exactly when it asked to be, nobody else's readiness changes, and a start happens if and only if the edited set meets the start condition in the lobby |
| GameSession.NotifyRoundEnded | Assets/PartyChaos/_Scripts/Game/GameSessionManager.cs:85-91 | from any phase the session enters `Results` and schedules one advance |
| GameSession.AdvanceOrEndMatch | Assets/PartyChaos/_Scripts/Game/GameSessionManager.cs:93-110 | the counter grows by exactly one; at or past `roundsPerMatch` the session ends in `Lobby` with nobody ready and the hub scene requested, otherwise it loads the next round |
| GameSession.IndexKeptAfterMatch | Assets/PartyChaos/_Scripts/Game/GameSessionManager.cs:93-110 | after the last round the lobby shows the counter at `roundsPerMatch`, and with two or more clients nobody is ready, so no start is possible |
| GameSession.ThreeRoundMatch | Assets/PartyChaos/_Scripts/Game/GameSessionManager.cs:73-110 | with three rounds per match, the first two round ends load rounds 1 and 2 and the third returns to the lobby with the counter at 3 and an empty ready set |
| GameSession.ReadyEditedInEveryPhase | Assets/PartyChaos/_Scripts/Game/GameSessionManager.cs:49-61 | outside the lobby a ready RPC still adds or removes the sender and changes nothing else |
| GameSession.TwoReadyStart | Assets/PartyChaos/_Scripts/Game/GameSessionManager.cs:48-77 | in a lobby nobody is ready in, two listed clients' first ready RPC is only recorded and the second starts the match at round 0 with both ready and the round scene requested |
| GameSession.NoSoloStart | Assets/PartyChaos/_Scripts/Game/GameSessionManager.cs:58-64 | with a single connected client, readiness is recorded but no match starts |
| GameSession.DisconnectClearsReadiness | Assets/PartyChaos/_Scripts/Game/GameSessionManager.cs:43-71 | while a client that has left is still listed as connected, no other client's ready RPC can start the match |
| RoundManager.Survivor | Assets/PartyChaos/_Scripts/Game/RoundManager.cs:82-83 | the first element of an alive set of at most one id is its only element, or 0 for an empty set |
| RoundManager.SpawnRound | Assets/PartyChaos/_Scripts/Game/RoundManager.cs:17-29 | round spawn sets the timer to `roundTime`, makes the alive set exactly the connected ids, zeroes every round counter and keeps ids, order and match points |
| RoundManager.EndRoundByAlive | Assets/PartyChaos/_Scripts/Game/RoundManager.cs:77-90 | outside `Playing` nothing happens; from `Playing` the session enters `Results` and schedules the advance, and the ledger is exactly the survivor paid: the sole survivor's match and round points grow by the bonus unless its id is 0, and nobody is paid when no one or only client 0 is alive; clients outside the alive set keep their points |
| RoundManager.LeaderUnique | Assets/PartyChaos/_Scripts/Game/RoundManager.cs:108-117 | at most one row can win the timeout comparison |
| RoundManager.Leader | Assets/PartyChaos/_Scripts/Game/RoundManager.cs:98-117 | the in-order scan finds the alive row with the most round points, strictly above `int.MinValue`, with no earlier alive row equal to it; if it finds none, every alive row sits at `int.MinValue` |
| RoundManager.TimeoutWinner | Assets/PartyChaos/_Scripts/Game/RoundManager.cs:98-117 | the timeout winner is the leading row's client, which is alive unless the result is 0, and 0 when no row leads |
| RoundManager.PayBonus | Assets/PartyChaos/_Scripts/Game/RoundManager.cs:86-87 | a winner id of 0 leaves the ledger as it is; any other winner's match and round points grow by the bonus, and every other client keeps its points |
| RoundManager.EndRoundByPointsOrAlive | Assets/PartyChaos/_Scripts/Game/RoundManager.cs:92-123 | outside `Playing` nothing happens; from `Playing` the session enters `Results` and the ledger is exactly the timeout winner paid (`TimeoutWinner`'s contract makes that the leading alive client, and `PayBonus`'s makes its match and round points grow by the bonus unless its id is 0); every other client keeps its points, and nobody is paid when no row leads or client 0 leads |
| RoundManager.Tick | Assets/PartyChaos/_Scripts/Game/RoundManager.cs:31-62 | a frame does nothing outside the three active phases; otherwise it reaches `Playing`, runs the timer down, ends the round by the alive count when at most one is alive, by points when the timer has run out, and otherwise leaves scores and effects alone |
| RoundManager.NotifyEliminated | Assets/PartyChaos/_Scripts/Game/RoundManager.cs:67-75 | an elimination removes exactly the victim from the alive set; from `Playing` with at most one left it ends the round, schedules the advance and pays the one survivor, unless its id is 0 or nobody is left |
| RoundManager.EliminationCounts | Assets/PartyChaos/_Scripts/Game/RoundManager.cs:67-75 | eliminating an alive client shrinks the alive set by exactly one; eliminating an absent one while two or more remain changes nothing |
| RoundManager.EliminationIdempotent | Assets/PartyChaos/_Scripts/Game/RoundManager.cs:67-75 | a repeated elimination of the same client changes nothing and requests nothing |
| RoundManager.NoSecondBonus | Assets/PartyChaos/_Scripts/Game/RoundManager.cs:77-95 | while the session shows `Results`, neither a frame nor an elimination nor either end path pays anyone or moves the session |
| RoundManager.EndsOnce | Assets/PartyChaos/_Scripts/Game/RoundManager.cs:51-123 | from any world in `Playing`: after the timeout path (which `Update` takes with two or more alive) a second timeout call does nothing, and neither does the alive path once eliminations leave at most one alive; after the alive path (taken with at most one alive) neither path does anything |
| RoundManager.LoadingReachesPlayingInOneTick | Assets/PartyChaos/_Scripts/Game/RoundManager.cs:36-46 | one frame starting in `LoadingRound`, when the round does not end in that frame (two or more alive and time left after it), passes through `Countdown` and leaves the session in `Playing` with nothing requested |
| RoundManager.TransitionalPhasesPlay | Assets/PartyChaos/_Scripts/Game/RoundManager.cs:36-62 | a frame from `LoadingRound` or `Countdown` has exactly the outcome of the same frame from `Playing`, whether or not the round ends in it |
| RoundManager.AliveEndTakesPrecedence | Assets/PartyChaos/_Scripts/Game/RoundManager.cs:50-61 | with one survivor who has no ledger row and an expired timer, the alive check runs first and pays the survivor, where the timeout path would pay nobody |
| RoundManager.HostLeaderPaysNobody | Assets/PartyChaos/_Scripts/Game/RoundManager.cs:98-120 | when client 0 leads on timeout, no one is paid, not even the runner-up |
| RoundManager.TieGoesToFirstRow | Assets/PartyChaos/_Scripts/Game/RoundManager.cs:108-117 | on a tie in round points, the row that comes first in the ledger wins |
| ScoreManager.SameClientIgnoresPoints | Assets/PartyChaos/_Scripts/Game/ScoreManager.cs:14 | row equality compares client ids only, so any two points values of one client are equal rows |
| ScoreManager.Find | Assets/PartyChaos/_Scripts/Game/ScoreManager.cs:87-96 | the search returns the first row of the client, and returns nothing exactly when the client has no row |
| ScoreManager.Init | Assets/PartyChaos/_Scripts/Game/ScoreManager.cs:36-50 | spawn builds one zero row per connected client, in client-list order, with one row per client exactly when the list has no duplicates |
| ScoreManager.EnsureEntry | Assets/PartyChaos/_Scripts/Game/ScoreManager.cs:55-69 | on connect a client with a row changes nothing, a client without one gets a zero row appended, and one row per client is preserved |
| ScoreManager.EnsureEntryIdempotent | Assets/PartyChaos/_Scripts/Game/ScoreManager.cs:55-69 | a second connect callback for the same client changes nothing |
| ScoreManager.ResetRoundPoints | Assets/PartyChaos/_Scripts/Game/ScoreManager.cs:71-81 | every round counter becomes 0, and ids, order, length and match points are unchanged |
| ScoreManager.ResetRoundPointsIdempotent | Assets/PartyChaos/_Scripts/Game/ScoreManager.cs:71-81 | resetting twice is the same as resetting once |
| ScoreManager.AddPoints | Assets/PartyChaos/_Scripts/Game/ScoreManager.cs:83-105 | only the client's first row gets the amount added to both counters and every other row is unchanged; a client with no row gets one appended with both counters equal to the amount; one row per client is preserved |
| ScoreManager.AddPointsReadBack | Assets/PartyChaos/_Scripts/Game/ScoreManager.cs:83-105 | read back per client, adding points moves that client's match and round points by the amount and leaves every other client's points as they were |
| ScoreManager.MatchPointsAccumulate | Assets/PartyChaos/_Scripts/Game/ScoreManager.cs:83-105 | after any run of awards, a client's match points are its starting points plus the exact sum awarded to it, wrapped once into the 32-bit range |
| ScoreManager.AwardRoundWinBonus | Assets/PartyChaos/_Scripts/Game/ScoreManager.cs:107-111 | the bonus moves the winner's match and round points by the bonus and no one else's points |
| ScoreManager.AwardIsAddPoints | Assets/PartyChaos/_Scripts/Game/ScoreManager.cs:107-111 | paying the bonus has exactly the effect of adding those points |
| PartyLevel.LevelFor | Assets/PartyChaos/_Scripts/Player/PartyLevelController.cs:20-24 | the level is 1 to 3: 3 exactly from `level3XP` on, 2 exactly from `level2XP` up to below `level3XP`, 1 below both |
| PartyLevel.AddPartyXp | Assets/PartyChaos/_Scripts/Player/PartyLevelController.cs:15-25 | after any amount the XP is not negative and the level is 1 to 3 and agrees with the XP; without overflow the XP is the sum clamped at 0 |
| PartyLevel.LevelFromXpAlone | Assets/PartyChaos/_Scripts/Player/PartyLevelController.cs:18-24 | two updates that end at the same XP end at the same level, whatever the levels before |
| PartyLevel.LevelMonotone | Assets/PartyChaos/_Scripts/Player/PartyLevelController.cs:20-24 | more XP never gives a lower level |
| PartyLevel.LevelCanDrop | Assets/PartyChaos/_Scripts/Player/PartyLevelController.cs:18-24 | a negative amount can lower the level: 70 XP minus 50 is level 1 under the default thresholds |
| PartyLevel.OverflowClampsToZero | Assets/PartyChaos/_Scripts/Player/PartyLevelController.cs:18 | adding 1 to the largest `int` XP wraps to a negative sum, which the clamp turns into 0 XP at level 1 |
| PartyLevel.InitialConsistent | Assets/PartyChaos/_Scripts/Player/PartyLevelController.cs:8-13 | the initial 0 XP and level 1 agree under the default thresholds |
| MatchFlow.Step | Assets/PartyChaos/_Scripts/Game/GameSessionManager.cs:35-46 | a connect lists the client and gives it a ledger row; a disconnect unlists it and clears its readiness but leaves round and ledger alone; an advance with none pending does nothing; frames and eliminations do nothing while no round manager exists; a round spawn creates one and leaves the session alone |
| MatchFlow.StartInv | Assets/PartyChaos/_Scripts/Game/GameSessionManager.cs:22-26 | the server starts in the lobby at counter 0 with nothing pending and one ledger row per client |
| MatchFlow.StepKeepsInv | Assets/PartyChaos/_Scripts/Game/GameSessionManager.cs:58-110 | every admissible event keeps the invariant: `MatchOver` is never observed, the counter is in `[0, roundsPerMatch)` whenever a match runs, exactly one advance is pending in `Results` and none elsewhere, at most one ledger row per client and a row for every connected client, no client listed twice, only connected clients are ready, and without a round manager the session is in the lobby or waiting for the round scene; an admissible connect is for a client not yet listed, and an admissible ready RPC comes from a listed one |
| MatchFlow.RunKeepsInv | Assets/PartyChaos/_Scripts/Game/GameSessionManager.cs:58-110 | the invariant holds after any admissible run of events |
| MatchFlow.ResultsDecide | Assets/PartyChaos/_Scripts/Game/GameSessionManager.cs:93-110 | when the results delay runs out, the match ends exactly when the round just played was the last, and otherwise the next round loads |
| MatchFlow.AdvanceFiresOnce | Assets/PartyChaos/_Scripts/Game/GameSessionManager.cs:85-110 | a round end is advanced past once; a further elapsed results delay changes nothing |
| MatchFlow.WithoutKeepsDistinct | Assets/PartyChaos/_Scripts/Game/GameSessionManager.cs:43-46 | dropping a client from a client list without duplicates leaves a list without duplicates |
| MatchFlow.SurvivorFramePays | Assets/PartyChaos/_Scripts/Game/RoundManager.cs:31-90 | while a round manager exists, a frame in an active phase with exactly one client alive, other than 0, ends the round, schedules one advance and pays that client the bonus |
| MatchFlow.ResultsElapsedLoads | Assets/PartyChaos/_Scripts/Game/GameSessionManager.cs:93-110 | the delayed advance after a round that is not the last loads the next one and leaves the round and the ledger alone |
| MatchFlow.StaleRoundPaysAgain | Assets/PartyChaos/_Scripts/Game/RoundManager.cs:31-62 | from the `Results` state a round end leaves (one advance pending, a single survivor other than 0 still alive, not the last round): the delayed advance loads the next round but keeps the old manager, its alive set and the ledger, and the next frame ends the old round again, pays the survivor a second bonus on both counters and leaves another advance pending |
| MatchFlow.FirstRoundWaitsForSpawn | Assets/PartyChaos/_Scripts/Game/RoundManager.cs:17-46 | when two clients in a fresh lobby ready up, the match waits in `LoadingRound` with nothing pending: frames and eliminations change nothing until the round scene spawns, and the spawn makes both clients alive |
| MatchFlow.HubHasNoRound | Assets/PartyChaos/_Scripts/Game/GameSessionManager.cs:100-110 | after the last round's delayed advance the session is in the lobby with no round manager and nothing pending, and frames and eliminations change nothing |
| MatchFlow.StaleRoundExample | Assets/PartyChaos/_Scripts/Game/RoundManager.cs:31-62 | from a state the invariant admits, survivor 7 collects 100 points twice for round 0 and one more advance is pending |
| MatchFlow.LeaverStaysAlive | Assets/PartyChaos/_Scripts/Game/GameSessionManager.cs:43-46 | a disconnect leaves the alive set as it was, so the leaver still counts as alive |

## Left out

- Netcode plumbing is not modelled: replication of `NetworkVariable`/`NetworkList`, the RPC attributes, the `IsServer` guards and the singleton `I` fields. Only the server context is modelled.
- The engine is not modelled. `SceneManager.LoadScene` and the `Invoke` delay are `Effect` values, and `resultsDuration` and the scene names are not modelled.
- `RoundManager.Tick`: float `TimeLeft` and `Time.deltaTime` are integer time units. A frame's elapsed time is a parameter.
- `RoundManager.EndRoundByPointsOrAlive`: the branch for a missing `ScoreManager` instance (`RoundManager.cs:102-106`) is not modelled, and neither is the null test at `RoundManager.cs:86`. The ledger is always present.
- `RoundManager.EndRoundByAlive`: requires at most one alive id. This is what both callers guarantee, and it makes the `foreach … break` over a hash set deterministic.
- `ScoreManager.ResetRoundPoints` and `ScoreManager.AddPoints`: the model takes the `NetworkList` indexer setter (`Scores[i] = s`, `ScoreManager.cs:79` and `:94`) to write the row unconditionally. A setter that skips the write when the old and new rows compare equal would drop these updates, because `PlayerScore.Equals` compares client ids only and the update never changes the id. The package version that decides this is not part of this model.
- Client ids are unbounded naturals. The `ulong` upper bound is not modelled.
- The round counter is an unbounded integer. Its overflow would need 2^31 advances and is not modelled.
- The spawn, camera, physics, dance-zone, elimination-volume, spectator and debug components are not part of this model. The dance zone's only effect on the match is `AddPoints`, and an elimination volume only calls `NotifyEliminated`. Both are covered by the `Points` and `Eliminate` events.
- `MatchFlow.Step`: the ledger is taken to spawn once, when the network session starts, and to survive every scene load, as if it shared the session manager's persistent object. `ScoreManager` does not call `DontDestroyOnLoad` itself (`ScoreManager.cs:30-34`, unlike `GameSessionManager.cs:32`), and both scene loads replace the scene (`GameSessionManager.cs:82` and `:103`). Where the ledger object sits in the scenes is not part of this model. If it lived in the round scene, `OnNetworkSpawn` would clear it at every round and match points would restart at 0; if it lived in the hub scene alone, the first round load would destroy it. `MatchPointsAccumulate` across rounds and the stale-round double payment both rest on this choice.
- `MatchFlow.Step`: the round manager is taken to disappear as soon as the hub scene is requested. In the engine the old round scene runs until the load completes, but in `Lobby` its frames change nothing and its eliminations only shrink an alive set that the next spawn replaces.
- `MatchFlow.Step`: when the round scene spawns is left to the event order. `RoundSpawned` is an event of its own, not a consequence of `LoadRoundScene`.

=== FILE: basics.dfy ===
/** Primitive types shared by the match logic: client ids, the arithmetic of a
    C# `int`, and optional values. */
module Basics {

  /** Netcode client ids are `ulong`; the model uses the natural numbers.
      Id 0 is the host's own client. */
  type ClientId = nat

  const INT_MIN: int := -0x8000_0000
  const INT_MAX: int := 0x7fff_ffff
  const TWO_32: int := 0x1_0000_0000

  /** Whether an exact result fits in a C# `int`. */
  predicate InInt32Range(x: int) {
    INT_MIN <= x <= INT_MAX
  }

  /** The values a C# `int` can hold. */
  type Int32 = x: int | InInt32Range(x)

  /** Unchecked C# `int` arithmetic: the exact result reduced into the 32-bit
      range (two's complement wrap-around). */
  function Wrap(x: int): (r: Int32)
    ensures InInt32Range(x) ==> r == x
    decreases if x > INT_MAX then x - INT_MAX else if x < INT_MIN then INT_MIN - x else 0
  {
    if x > INT_MAX then Wrap(x - TWO_32)
    else if x < INT_MIN then Wrap(x + TWO_32)
    else x
  }

  /** `Wrap` changes its argument by a multiple of 2^32. */
  lemma {:induction false} WrapCongruent(x: int)
    ensures (x - Wrap(x)) % TWO_32 == 0
    decreases if x > INT_MAX then x - INT_MAX else if x < INT_MIN then INT_MIN - x else 0
  {
    if x > INT_MAX {
      WrapCongruent(x - TWO_32);
    } else if x < INT_MIN {
      WrapCongruent(x + TWO_32);
    }
  }

  /** Two 32-bit values that agree modulo 2^32 are equal. */
  lemma CongruentInt32Equal(a: Int32, b: Int32)
    requires (a - b) % TWO_32 == 0
    ensures a == b
  {
    assert InInt32Range(a) && InInt32Range(b);
    var k := (a as int - b) / TWO_32;
    assert a as int - b == TWO_32 * k;
  }

  /** Wrapping an intermediate sum does not change the final wrapped sum:
      `Wrap(Wrap(x) + y) == Wrap(x + y)`. */
  lemma WrapAddAbsorb(x: int, y: int)
    ensures Wrap(Wrap(x) + y) == Wrap(x + y)
  {
    var a: int := Wrap(Wrap(x) + y);
    var b: int := Wrap(x + y);
    WrapCongruent(Wrap(x) + y);
    WrapCongruent(x);
    WrapCongruent(x + y);
    var p := (Wrap(x) + y - a) / TWO_32;
    var q := (x - Wrap(x)) / TWO_32;
    var s := (x + y - b) / TWO_32;
    assert Wrap(x) + y - a == TWO_32 * p;
    assert x - Wrap(x) == TWO_32 * q;
    assert x + y - b == TWO_32 * s;
    assert a - b == TWO_32 * (s - p - q);
    CongruentInt32Equal(a, b);
  }

  datatype Option<+T> = None | Some(value: T)
}

=== FILE: game_session.dfy ===
/** `GameSessionManager`: the match-level state machine, the ready set, and
    the round counter, seen from the server. */
module GameSession {
  import opened Basics

  /** `SessionState`. */
  datatype Phase = Lobby | LoadingRound | Countdown | Playing | Results | MatchOver

  /** What the session asks of the engine besides changing its own state:
      loading the round scene, loading the hub scene, and the `Invoke` that
      calls `AdvanceOrEndMatch` once the results delay has passed. */
  datatype Effect = LoadRoundScene | LoadHubScene | ScheduleAdvance

  datatype Session = Session(phase: Phase, roundIndex: int, ready: set<ClientId>)

  /** The state after one server-side entry point, with the effects it
      requested, in order. */
  datatype SessionStep = SessionStep(session: Session, effects: seq<Effect>)

  /** The inspector field `roundsPerMatch`. */
  datatype Config = Config(roundsPerMatch: int)

  const DefaultConfig := Config(3)

  /** The network variables' initial values and an empty ready set. */
  const Initial := Session(Lobby, 0, {})

  /** The start condition `TryStartIfAllReady` tests, read off the client
      list: the session is in the lobby, the list holds at least two
      entries, and every listed client is ready. */
  predicate AllReady(s: Session, connected: seq<ClientId>) {
    && s.phase == Lobby
    && |connected| >= 2
    && forall i :: 0 <= i < |connected| ==> connected[i] in s.ready
  }

  /** `OnClientDisconnected`: forget that client's readiness and nothing else. */
  function OnClientDisconnected(s: Session, id: ClientId): (r: Session)
    ensures id !in r.ready
    ensures forall o :: o != id ==> (o in r.ready <==> o in s.ready)
    ensures r.phase == s.phase && r.roundIndex == s.roundIndex
  {
    s.(ready := s.ready - {id})
  }

  /** `LoadRound`: enter `LoadingRound` and load the round scene. */
  function LoadRound(s: Session): (r: SessionStep)
    ensures r.session.phase == LoadingRound
    ensures r.session.roundIndex == s.roundIndex && r.session.ready == s.ready
    ensures r.effects == [LoadRoundScene]
  {
    SessionStep(s.(phase := LoadingRound), [LoadRoundScene])
  }

  /** `StartMatch`: the first round of a new match. */
  function StartMatch(s: Session): (r: SessionStep)
    ensures r.session == Session(LoadingRound, 0, s.ready)
    ensures r.effects == [LoadRoundScene]
  {
    LoadRound(s.(roundIndex := 0))
  }

  /** `TryStartIfAllReady`: start the match when `AllReady` holds; otherwise
      change nothing and request nothing. */
  function TryStartIfAllReady(s: Session, connected: seq<ClientId>): (r: SessionStep)
    ensures r.effects != [] <==> AllReady(s, connected)
    ensures AllReady(s, connected) ==> r.session == Session(LoadingRound, 0, s.ready)
    ensures !AllReady(s, connected) ==> r == SessionStep(s, [])
  {
    if s.phase != Lobby then SessionStep(s, [])
    else if |connected| < 2 then SessionStep(s, [])
    else if exists i :: 0 <= i < |connected| && connected[i] !in s.ready then SessionStep(s, [])
    else StartMatch(s)
  }

  /** `SetReadyServerRpc`: add the sender to the ready set or remove it, in
      any phase, then test the start condition. */
  function SetReady(s: Session, sender: ClientId, ready: bool, connected: seq<ClientId>): (r: SessionStep)
    ensures sender in r.session.ready <==> ready
    ensures forall o :: o != sender ==> (o in r.session.ready <==> o in s.ready)
    ensures s.phase != Lobby ==> r.session.phase == s.phase && r.session.roundIndex == s.roundIndex && r.effects == []
    ensures r.effects != [] <==> AllReady(r.session.(phase := s.phase), connected)
    ensures r.effects != [] ==> r.session.phase == LoadingRound && r.session.roundIndex == 0
    ensures r.effects == [] ==> r.session.phase == s.phase && r.session.roundIndex == s.roundIndex
  {
    var edited := if ready then s.(ready := s.ready + {sender}) else s.(ready := s.ready - {sender});
    TryStartIfAllReady(edited, connected)
  }

  /** `NotifyRoundEndedServerRpc`: enter `Results`, from whatever phase, and
      schedule the advance. */
  function NotifyRoundEnded(s: Session): (r: SessionStep)
    ensures r.session.phase == Results
    ensures r.session.roundIndex == s.roundIndex && r.session.ready == s.ready
    ensures r.effects == [ScheduleAdvance]
  {
    SessionStep(s.(phase := Results), [ScheduleAdvance])
  }

  /** `AdvanceOrEndMatch`: count the round just played; after the last round
      pass through `MatchOver` back to the lobby with nobody ready, otherwise
      load the next round. */
  function AdvanceOrEndMatch(s: Session, cfg: Config): (r: SessionStep)
    ensures r.session.roundIndex == s.roundIndex + 1
    ensures s.roundIndex + 1 >= cfg.roundsPerMatch ==>
              r.session.phase == Lobby && r.session.ready == {} && r.effects == [LoadHubScene]
    ensures s.roundIndex + 1 < cfg.roundsPerMatch ==>
              r.session.phase == LoadingRound && r.session.ready == s.ready && r.effects == [LoadRoundScene]
  {
    var counted := s.(roundIndex := s.roundIndex + 1);
    if counted.roundIndex >= cfg.roundsPerMatch then
      var over := counted.(phase := MatchOver);
      SessionStep(over.(phase := Lobby, ready := {}), [LoadHubScene])
    else
      LoadRound(counted)
  }

  /** The counter is not reset on the way back to the lobby: after a match of
      `roundsPerMatch` rounds it still reads `roundsPerMatch` (at least 1),
      and only the next `StartMatch` sets it to 0 again. */
  lemma IndexKeptAfterMatch(s: Session, cfg: Config, connected: seq<ClientId>)
    requires s.phase == Results && s.roundIndex + 1 == cfg.roundsPerMatch
    ensures AdvanceOrEndMatch(s, cfg).session == Session(Lobby, cfg.roundsPerMatch, {})
    ensures |connected| >= 2 ==> TryStartIfAllReady(AdvanceOrEndMatch(s, cfg).session, connected).effects == []
  {
    var lobby := AdvanceOrEndMatch(s, cfg).session;
    if |connected| >= 2 {
      assert connected[0] !in lobby.ready;
    }
  }

  /** A whole three-round match under the default settings, whatever the
      counter read before it: rounds 1 and 2 load the next round, the third
      returns to the lobby with nobody ready and the counter at 3. */
  lemma ThreeRoundMatch(previous: int, ready: set<ClientId>)
    ensures var s0 := StartMatch(Session(Lobby, previous, ready)).session;
            var s1 := AdvanceOrEndMatch(NotifyRoundEnded(s0).session, DefaultConfig).session;
            var s2 := AdvanceOrEndMatch(NotifyRoundEnded(s1).session, DefaultConfig).session;
            var s3 := AdvanceOrEndMatch(NotifyRoundEnded(s2).session, DefaultConfig).session;
            && s1 == Session(LoadingRound, 1, ready)
            && s2 == Session(LoadingRound, 2, ready)
            && s3 == Session(Lobby, 3, {})
  {
  }

  /** Ready-set edits are applied in every phase; outside the lobby they
      change nothing else. */
  lemma ReadyEditedInEveryPhase(s: Session, sender: ClientId, connected: seq<ClientId>)
    requires s.phase != Lobby
    ensures SetReady(s, sender, true, connected) == SessionStep(s.(ready := s.ready + {sender}), [])
    ensures SetReady(s, sender, false, connected) == SessionStep(s.(ready := s.ready - {sender}), [])
  {
  }

  /** Two clients in a lobby nobody is ready in: the first ready RPC is
      recorded and starts nothing, the second starts the match. */
  lemma TwoReadyStart(s: Session, a: ClientId, b: ClientId)
    requires s.phase == Lobby && s.ready == {} && a != b
    ensures SetReady(s, a, true, [a, b]) == SessionStep(s.(ready := {a}), [])
    ensures SetReady(SetReady(s, a, true, [a, b]).session, b, true, [a, b])
            == SessionStep(Session(LoadingRound, 0, {a, b}), [LoadRoundScene])
  {
    var st1 := SetReady(s, a, true, [a, b]);
    assert [a, b][1] !in st1.session.ready;
    assert st1.session.ready == {a};
    var st2 := SetReady(st1.session, b, true, [a, b]);
    assert st2.session.ready == {a, b};
    assert AllReady(st2.session.(phase := Lobby), [a, b]);
  }

  /** A single client can never start a match, however ready it is. */
  lemma NoSoloStart(s: Session, id: ClientId)
    requires s.phase == Lobby
    ensures SetReady(s, id, true, [id]).session == s.(ready := s.ready + {id})
    ensures SetReady(s, id, true, [id]).effects == []
  {
  }

  /** After a disconnect the leaver is no longer ready: while it is still
      listed among the connected clients, no ready change by another client
      can start the match. */
  lemma DisconnectClearsReadiness(s: Session, id: ClientId, other: ClientId, connected: seq<ClientId>)
    requires id in connected && id != other
    ensures SetReady(OnClientDisconnected(s, id), other, true, connected).effects == []
  {
    var i :| 0 <= i < |connected| && connected[i] == id;
    var r := SetReady(OnClientDisconnected(s, id), other, true, connected);
    assert connected[i] !in r.session.ready;
  }
}

=== FILE: match_flow.dfy ===
/** The server as a whole: the session, the round and the ledger driven by
    the callbacks the engine delivers (connections, ready RPCs, the round
    scene spawning, frames, eliminations, the results delay running out and
    points scored in play). The `Invoke` of `AdvanceOrEndMatch` is a pending
    counter that the `ResultsElapsed` event consumes. */
module MatchFlow {
  import opened Basics
  import opened ScoreManager
  import opened GameSession
  import opened RoundManager

  /** Everything the server holds between two callbacks: the three
      components, the netcode client list, how many delayed
      `AdvanceOrEndMatch` calls are still waiting, and whether a round
      manager exists. The round manager lives in the round scene: there is
      none before the first round scene spawns, and none once the hub scene
      has been loaded; a round scene being replaced by the next one keeps
      its manager running until the new one spawns. */
  datatype Server = Server(world: World, connected: seq<ClientId>, pending: nat, spawned: bool)

  /** The callbacks and RPCs that reach the match logic. */
  datatype Event =
    | Connect(id: ClientId)
    | Disconnect(id: ClientId)
    | ReadyFrom(id: ClientId, ready: bool)
    | RoundSpawned
    | Frame(elapsed: nat)
    | Eliminate(id: ClientId)
    | ResultsElapsed
    | Points(id: ClientId, amount: Int32)

  /** The inspector settings of both managers. */
  datatype Rules = Rules(session: Config, round: RoundConfig)

  const DefaultRules := Rules(DefaultConfig, DefaultRoundConfig)

  /** How many delayed advances a list of effects schedules. */
  function Scheduled(effects: seq<Effect>): (n: nat)
    ensures n <= |effects|
    ensures n == 0 <==> ScheduleAdvance !in effects
  {
    if effects == [] then 0
    else (if effects[0] == ScheduleAdvance then 1 else 0) + Scheduled(effects[1..])
  }

  /** The client list after netcode drops `id`. */
  function Without(xs: seq<ClientId>, id: ClientId): (r: seq<ClientId>)
    ensures forall x :: x in r <==> x in xs && x != id
    ensures |r| <= |xs|
  {
    if xs == [] then []
    else (if xs[0] == id then [] else [xs[0]]) + Without(xs[1..], id)
  }

  /** Dropping a client keeps a list without duplicates so. */
  lemma {:induction false} WithoutKeepsDistinct(xs: seq<ClientId>, id: ClientId)
    requires Distinct(xs)
    ensures Distinct(Without(xs, id))
  {
    if xs != [] {
      var tail := xs[1..];
      assert Distinct(tail) by {
        forall i, j | 0 <= i < j < |tail| ensures tail[i] != tail[j] {
          assert tail[i] == xs[i + 1] && tail[j] == xs[j + 1];
        }
      }
      WithoutKeepsDistinct(tail, id);
      if xs[0] != id {
        assert xs[0] !in tail;
        DistinctCons(xs[0], Without(tail, id));
      }
    }
  }

  /** Putting a new id in front of a list without duplicates keeps it so. */
  lemma DistinctCons(x: ClientId, xs: seq<ClientId>)
    requires x !in xs && Distinct(xs)
    ensures Distinct([x] + xs)
  {
    var r := [x] + xs;
    forall i, j | 0 <= i < j < |r| ensures r[i] != r[j] {
      assert r[j] == xs[j - 1];
      if i > 0 {
        assert r[i] == xs[i - 1];
      }
    }
  }

  /** Appending a new id to a list without duplicates keeps it so. */
  lemma DistinctSnoc(xs: seq<ClientId>, x: ClientId)
    requires x !in xs && Distinct(xs)
    ensures Distinct(xs + [x])
  {
    var r := xs + [x];
    forall i, j | 0 <= i < j < |r| ensures r[i] != r[j] {
      assert r[i] == xs[i];
      if j < |xs| {
        assert r[j] == xs[j];
      }
    }
  }

  /** The server when the network session starts: the lobby, no round
      manager yet (its fields hold `TimeLeft` 0 and nobody alive, but no
      callback reads them), and one zero ledger row per client. */
  function Start(connected: seq<ClientId>): (s: Server)
    ensures s.world.session == Initial && s.pending == 0 && !s.spawned
    ensures Ids(s.world.scores) == connected
  {
    Server(World(Initial, Round(0, {}), Init(connected)), connected, 0, false)
  }

  /** A round-manager result folded back into the server. */
  function After(s: Server, n: Next): (r: Server)
    ensures r.world == n.world && r.connected == s.connected && r.spawned == s.spawned
    ensures r.pending == s.pending + Scheduled(n.effects)
  {
    Server(n.world, s.connected, s.pending + Scheduled(n.effects), s.spawned)
  }

  /** A session result folded back into the server. Loading the hub scene
      removes the round manager; loading the round scene does not, until
      the new one spawns. */
  function AfterSession(s: Server, st: SessionStep, consumed: nat): (r: Server)
    requires consumed <= s.pending
    ensures r.world == s.world.(session := st.session) && r.connected == s.connected
    ensures r.pending == s.pending - consumed + Scheduled(st.effects)
    ensures r.spawned <==> s.spawned && LoadHubScene !in st.effects
  {
    Server(s.world.(session := st.session), s.connected, s.pending - consumed + Scheduled(st.effects),
           s.spawned && LoadHubScene !in st.effects)
  }

  /** One event on the server. `ResultsElapsed` with nothing pending does
      nothing, since no `Invoke` is waiting to fire; frames and eliminations
      do nothing while no round manager exists, since nothing runs its
      `Update` and `EliminationVolume` finds no manager to notify. */
  function Step(s: Server, e: Event, rules: Rules): (r: Server)
    ensures e.Connect? ==> r.connected == s.connected + [e.id] && e.id in Ids(r.world.scores)
    ensures e.Disconnect? ==> e.id !in r.connected && e.id !in r.world.session.ready
    ensures e.Disconnect? ==> r.world.round == s.world.round && r.world.scores == s.world.scores
    ensures !e.Connect? && !e.Disconnect? ==> r.connected == s.connected
    ensures e.ResultsElapsed? && s.pending == 0 ==> r == s
    ensures (e.Frame? || e.Eliminate?) && !s.spawned ==> r == s
    ensures e.RoundSpawned? ==> r.spawned && r.world.session == s.world.session
  {
    match e
    case Connect(id) =>
      s.(world := s.world.(scores := EnsureEntry(s.world.scores, id)), connected := s.connected + [id])
    case Disconnect(id) =>
      s.(world := s.world.(session := OnClientDisconnected(s.world.session, id)), connected := Without(s.connected, id))
    case ReadyFrom(id, ready) =>
      AfterSession(s, SetReady(s.world.session, id, ready, s.connected), 0)
    case RoundSpawned =>
      s.(world := SpawnRound(s.world, s.connected, rules.round), spawned := true)
    case Frame(elapsed) =>
      if !s.spawned then s else After(s, Tick(s.world, elapsed, rules.round))
    case Eliminate(id) =>
      if !s.spawned then s else After(s, NotifyEliminated(s.world, id, rules.round))
    case ResultsElapsed =>
      if s.pending == 0 then s
      else AfterSession(s, AdvanceOrEndMatch(s.world.session, rules.session), 1)
    case Points(id, amount) =>
      s.(world := s.world.(scores := AddPoints(s.world.scores, id, amount)))
  }

  /** Events netcode can deliver: a connecting client is not listed yet, and
      a ready RPC comes from a connected client. */
  predicate Admissible(s: Server, e: Event) {
    && (e.Connect? ==> e.id !in s.connected)
    && (e.ReadyFrom? ==> e.id in s.connected)
  }

  /** The events one after another. */
  function Run(s: Server, events: seq<Event>, rules: Rules): Server
    decreases |events|
  {
    if events == [] then s else Run(Step(s, events[0], rules), events[1..], rules)
  }

  /** Every event of the run is admissible in the state it reaches. */
  predicate AdmissibleRun(s: Server, events: seq<Event>, rules: Rules)
    decreases |events|
  {
    events == [] || (Admissible(s, events[0]) && AdmissibleRun(Step(s, events[0], rules), events[1..], rules))
  }

  /** What holds of the server between any two callbacks: `MatchOver` is
      never seen, the round counter is in range while a match runs, exactly
      one advance is pending in `Results` and none elsewhere, the ledger has
      at most one row per client and a row for every connected client, the
      client list has no duplicates, only connected clients are ready, and
      without a round manager the session is in the lobby or waiting for
      the round scene. */
  predicate Inv(s: Server, rules: Rules) {
    var ss := s.world.session;
    && ss.phase != MatchOver
    && 0 <= ss.roundIndex
    && (ss.phase != Lobby ==> ss.roundIndex < rules.session.roundsPerMatch)
    && s.pending == (if ss.phase == Results then 1 else 0)
    && WellFormed(s.world.scores)
    && (forall id :: id in s.connected ==> id in Ids(s.world.scores))
    && Distinct(s.connected)
    && (forall id :: id in ss.ready ==> id in s.connected)
    && (!s.spawned ==> ss.phase == Lobby || ss.phase == LoadingRound)
  }

  /** The server starts in a state the invariant admits. */
  lemma StartInv(connected: seq<ClientId>, rules: Rules)
    requires Distinct(connected)
    ensures Inv(Start(connected), rules)
  {
  }

  /** The ways a round-manager entry point may move the session: not at all,
      from an active phase to `Playing` with nothing requested, or from an
      active phase to `Results` with one advance scheduled. The counter and
      the ready set are never touched. */
  predicate RoundMove(before: Session, n: Next) {
    && n.world.session.roundIndex == before.roundIndex
    && n.world.session.ready == before.ready
    && (|| (n.world.session.phase == before.phase && n.effects == [])
        || (n.world.session.phase == Playing && Active(before.phase) && n.effects == [])
        || (n.world.session.phase == Results && Active(before.phase) && n.effects == [ScheduleAdvance]))
  }

  /** A round-manager step, taken while a round manager exists, keeps the
      invariant. */
  lemma AfterKeepsInv(s: Server, n: Next, rules: Rules)
    requires Inv(s, rules) && s.spawned
    requires RoundMove(s.world.session, n) && WellFormed(n.world.scores)
    requires forall id :: id in Ids(s.world.scores) ==> id in Ids(n.world.scores)
    ensures Inv(After(s, n), rules)
  {
    assert Scheduled([ScheduleAdvance]) == 1;
  }

  /** `Tick` moves the session as `RoundMove` allows, keeps the ledger well
      formed and drops no client's row. */
  lemma TickShape(w: World, elapsed: nat, cfg: RoundConfig)
    requires WellFormed(w.scores)
    ensures RoundMove(w.session, Tick(w, elapsed, cfg))
    ensures WellFormed(Tick(w, elapsed, cfg).world.scores)
    ensures forall id :: id in Ids(w.scores) ==> id in Ids(Tick(w, elapsed, cfg).world.scores)
  {
    if Active(w.session.phase) {
      var rest := w.(session := w.session.(phase := Playing), round := w.round.(timeLeft := w.round.timeLeft - elapsed));
      if |rest.round.alive| <= 1 {
        PayKeepsWellFormed(w.scores, Survivor(rest.round.alive), cfg.roundWinBonus);
      } else if rest.round.timeLeft <= 0 {
        PayKeepsWellFormed(w.scores, TimeoutWinner(rest.scores, rest.round.alive), cfg.roundWinBonus);
      }
    }
  }

  /** `NotifyEliminated` moves the session as `RoundMove` allows, keeps the
      ledger well formed and drops no client's row. */
  lemma EliminateShape(w: World, victim: ClientId, cfg: RoundConfig)
    requires WellFormed(w.scores)
    ensures RoundMove(w.session, NotifyEliminated(w, victim, cfg))
    ensures WellFormed(NotifyEliminated(w, victim, cfg).world.scores)
    ensures forall id :: id in Ids(w.scores) ==> id in Ids(NotifyEliminated(w, victim, cfg).world.scores)
  {
    var rest := w.round.alive - {victim};
    if w.session.phase == Playing && |rest| <= 1 {
      PayKeepsWellFormed(w.scores, Survivor(rest), cfg.roundWinBonus);
    }
  }

  /** Paying a bonus keeps one row per client and drops no row. */
  lemma PayKeepsWellFormed(scores: Ledger, winner: ClientId, bonus: Int32)
    requires WellFormed(scores)
    ensures WellFormed(PayBonus(scores, winner, bonus))
    ensures forall id :: id in Ids(scores) ==> id in Ids(PayBonus(scores, winner, bonus))
  {
    if winner != 0 {
      assert AwardRoundWinBonus(scores, winner, bonus) == AddPoints(scores, winner, bonus);
    }
  }

  /** Every admissible event keeps the invariant. */
  lemma StepKeepsInv(s: Server, e: Event, rules: Rules)
    requires rules.session.roundsPerMatch >= 1
    requires Inv(s, rules) && Admissible(s, e)
    ensures Inv(Step(s, e, rules), rules)
  {
    match e
    case Connect(id) =>
      DistinctSnoc(s.connected, id);
    case Disconnect(id) =>
      WithoutKeepsDistinct(s.connected, id);
    case ReadyFrom(id, ready) =>
      var st := SetReady(s.world.session, id, ready, s.connected);
      if st.effects != [] {
        assert st.effects == [LoadRoundScene];
      }
    case RoundSpawned =>
      assert WellFormed(SpawnRound(s.world, s.connected, rules.round).scores);
    case Frame(elapsed) =>
      if s.spawned {
        TickShape(s.world, elapsed, rules.round);
        AfterKeepsInv(s, Tick(s.world, elapsed, rules.round), rules);
      }
    case Eliminate(id) =>
      if s.spawned {
        EliminateShape(s.world, id, rules.round);
        AfterKeepsInv(s, NotifyEliminated(s.world, id, rules.round), rules);
      }
    case ResultsElapsed =>
      if s.pending != 0 {
        var st := AdvanceOrEndMatch(s.world.session, rules.session);
        assert Scheduled(st.effects) == 0;
      }
    case Points(id, amount) =>
  }

  /** A whole admissible run keeps the invariant. */
  lemma {:induction false} RunKeepsInv(s: Server, events: seq<Event>, rules: Rules)
    requires rules.session.roundsPerMatch >= 1
    requires Inv(s, rules) && AdmissibleRun(s, events, rules)
    ensures Inv(Run(s, events, rules), rules)
    decreases |events|
  {
    if events != [] {
      StepKeepsInv(s, events[0], rules);
      RunKeepsInv(Step(s, events[0], rules), events[1..], rules);
    }
  }

  /** When the results delay runs out, the match ends exactly when the round
      just shown was the last one; otherwise the next round loads. */
  lemma ResultsDecide(s: Server, rules: Rules)
    requires Inv(s, rules) && s.world.session.phase == Results
    ensures var r := Step(s, ResultsElapsed, rules).world.session;
            && r.roundIndex == s.world.session.roundIndex + 1
            && (r.phase == Lobby <==> s.world.session.roundIndex + 1 == rules.session.roundsPerMatch)
            && (r.phase == LoadingRound <==> s.world.session.roundIndex + 1 < rules.session.roundsPerMatch)
  {
  }

  /** Each round end is advanced past exactly once: once the pending advance
      has fired, another `ResultsElapsed` changes nothing. */
  lemma AdvanceFiresOnce(s: Server, rules: Rules)
    requires rules.session.roundsPerMatch >= 1
    requires Inv(s, rules) && s.world.session.phase == Results
    ensures var once := Step(s, ResultsElapsed, rules);
            once.pending == 0 && Step(once, ResultsElapsed, rules) == once
  {
    StepKeepsInv(s, ResultsElapsed, rules);
  }

  /** No round is played before its scene has spawned: two clients in a
      fresh lobby both ready up, the match starts in `LoadingRound`, and
      frames and eliminations leave the server as it is until the round
      manager spawns with both clients alive. */
  lemma FirstRoundWaitsForSpawn(a: ClientId, b: ClientId, rules: Rules, elapsed: nat, victim: ClientId)
    requires a != b
    ensures var s := Step(Step(Start([a, b]), ReadyFrom(a, true), rules), ReadyFrom(b, true), rules);
            && s.world.session == Session(LoadingRound, 0, {a, b})
            && s.pending == 0 && !s.spawned
            && Step(s, Frame(elapsed), rules) == s
            && Step(s, Eliminate(victim), rules) == s
            && Step(s, RoundSpawned, rules).spawned
            && Step(s, RoundSpawned, rules).world.round.alive == {a, b}
            && Step(s, RoundSpawned, rules).world.session == s.world.session
  {
    TwoReadyStart(Initial, a, b);
    assert Scheduled([LoadRoundScene]) == 0;
    var s := Step(Step(Start([a, b]), ReadyFrom(a, true), rules), ReadyFrom(b, true), rules);
    var alive := Step(s, RoundSpawned, rules).world.round.alive;
    assert forall id :: id in alive <==> id == a || id == b;
  }

  /** Once the last round's results delay has run out the hub scene is
      loaded and no round manager is left: frames and eliminations do
      nothing, so the finished match's survivor is not paid again. */
  lemma HubHasNoRound(s: Server, rules: Rules, elapsed: nat, victim: ClientId)
    requires Inv(s, rules) && s.world.session.phase == Results
    requires s.world.session.roundIndex + 1 == rules.session.roundsPerMatch
    ensures var r := Step(s, ResultsElapsed, rules);
            && r.world.session.phase == Lobby && !r.spawned && r.pending == 0
            && Step(r, Frame(elapsed), rules) == r
            && Step(r, Eliminate(victim), rules) == r
  {
    var st := AdvanceOrEndMatch(s.world.session, rules.session);
    assert st.effects == [LoadHubScene];
  }

  /** A round can be paid twice. A frame that ends a round leaves the round
      manager in `Results` with the old alive set (`SurvivorFramePays`).
      After the results delay the session is loading the next round, but
      until that round's manager spawns the old one still runs: its next
      frame ends the finished round again, pays the survivor a second time
      and schedules one more advance. `StaleRoundExample` runs both payments
      from a state the invariant admits. */
  lemma StaleRoundPaysAgain(s: Server, elapsed: nat, rules: Rules, v: ClientId)
    requires s.pending == 1 && s.spawned && s.world.session.phase == Results
    requires s.world.session.roundIndex + 1 < rules.session.roundsPerMatch
    requires s.world.round.alive == {v} && v != 0
    ensures var s2 := Step(s, ResultsElapsed, rules);
            var s3 := Step(s2, Frame(elapsed), rules);
            && s2.world.session.phase == LoadingRound && s2.world.round.alive == {v} && s2.spawned
            && s2.world.scores == s.world.scores
            && s3.world.session.phase == Results && s3.world.session.roundIndex == s.world.session.roundIndex + 1
            && s3.pending == 1
            && MatchOf(s3.world.scores, v) == Wrap(MatchOf(s.world.scores, v) + rules.round.roundWinBonus)
            && RoundOf(s3.world.scores, v) == Wrap(RoundOf(s.world.scores, v) + rules.round.roundWinBonus)
  {
    ResultsElapsedLoads(s, rules);
    SurvivorFramePays(Step(s, ResultsElapsed, rules), elapsed, rules, v);
  }

  /** The delayed advance of a round that is not the last loads the next
      one and touches neither the round manager nor the ledger. */
  lemma ResultsElapsedLoads(s: Server, rules: Rules)
    requires s.pending == 1 && s.world.session.phase == Results
    requires s.world.session.roundIndex + 1 < rules.session.roundsPerMatch
    ensures var r := Step(s, ResultsElapsed, rules);
            && r.world == s.world.(session := s.world.session.(phase := LoadingRound, roundIndex := s.world.session.roundIndex + 1))
            && r.pending == 0 && r.connected == s.connected && r.spawned == s.spawned
  {
    var a := AdvanceOrEndMatch(s.world.session, rules.session);
    assert a.effects == [LoadRoundScene];
  }

  /** The double payment from a concrete match start: one survivor, 7, on
      the first of three rounds, collects the 100-point bonus twice. */
  lemma StaleRoundExample(s: Server)
    requires s == Server(World(Session(Playing, 0, {}), Round(10, {7}), [PlayerScore(7, 0, 0), PlayerScore(8, 0, 0)]), [7, 8], 0, true)
    ensures var s3 := Step(Step(Step(s, Frame(0), DefaultRules), ResultsElapsed, DefaultRules), Frame(0), DefaultRules);
            && Inv(s, DefaultRules)
            && MatchOf(s3.world.scores, 7) == 200 && RoundOf(s3.world.scores, 7) == 200
            && s3.pending == 1
  {
    assert Inv(s, DefaultRules) by {
      assert Ids(s.world.scores) == [7, 8];
    }
    assert MatchOf(s.world.scores, 7) == 0 && RoundOf(s.world.scores, 7) == 0;
    SurvivorFramePays(s, 0, DefaultRules, 7);
    var s1 := Step(s, Frame(0), DefaultRules);
    assert MatchOf(s1.world.scores, 7) == 100 && RoundOf(s1.world.scores, 7) == 100;
    StaleRoundPaysAgain(s1, 0, DefaultRules, 7);
  }

  /** A frame of an active phase whose alive set is one client other than 0
      ends the round, schedules one advance and pays that client. */
  lemma SurvivorFramePays(s: Server, elapsed: nat, rules: Rules, v: ClientId)
    requires s.spawned && Active(s.world.session.phase) && s.world.round.alive == {v} && v != 0
    ensures Step(s, Frame(elapsed), rules).world.session == s.world.session.(phase := Results)
    ensures Step(s, Frame(elapsed), rules).pending == s.pending + 1
    ensures Step(s, Frame(elapsed), rules).connected == s.connected && Step(s, Frame(elapsed), rules).spawned
    ensures Step(s, Frame(elapsed), rules).world.round.alive == {v}
    ensures MatchOf(Step(s, Frame(elapsed), rules).world.scores, v) == Wrap(MatchOf(s.world.scores, v) + rules.round.roundWinBonus)
    ensures RoundOf(Step(s, Frame(elapsed), rules).world.scores, v) == Wrap(RoundOf(s.world.scores, v) + rules.round.roundWinBonus)
    ensures forall o :: o != v ==> MatchOf(Step(s, Frame(elapsed), rules).world.scores, o) == MatchOf(s.world.scores, o)
  {
    assert Survivor({v}) == v;
  }

  /** A client that leaves mid-round is not removed from the alive set: the
      round goes on counting it, so two players of whom one leaves do not end
      the round until the timer does. */
  lemma LeaverStaysAlive(s: Server, id: ClientId, rules: Rules)
    requires id in s.world.round.alive
    ensures id in Step(s, Disconnect(id), rules).world.round.alive
    ensures |Step(s, Disconnect(id), rules).world.round.alive| == |s.world.round.alive|
  {
  }
}

=== FILE: party_level.dfy ===
/** `PartyLevelController`: a player's party XP, clamped at zero, and the
    level 1, 2 or 3 that two thresholds derive from it. */
module PartyLevel {
  import opened Basics

  datatype Party = Party(xp: Int32, level: int)

  /** The inspector fields `level2XP` and `level3XP`. */
  datatype Thresholds = Thresholds(level2XP: Int32, level3XP: Int32)

  const DefaultThresholds := Thresholds(30, 70)

  /** The values the network variables start with. */
  const Initial := Party(0, 1)

  /** The level the thresholds give to an XP value: 3 from `level3XP` on,
      else 2 from `level2XP` on, else 1. */
  function LevelFor(xp: int, t: Thresholds): (lvl: int)
    ensures 1 <= lvl <= 3
    ensures lvl == 3 <==> xp >= t.level3XP
    ensures lvl == 2 <==> t.level2XP <= xp < t.level3XP
    ensures lvl == 1 <==> xp < t.level2XP && xp < t.level3XP
  {
    if xp >= t.level3XP then 3
    else if xp >= t.level2XP then 2
    else 1
  }

  /** A party state the controller can hold: XP not negative and the level
      the one the thresholds give to that XP. */
  predicate Consistent(p: Party, t: Thresholds) {
    p.xp >= 0 && p.level == LevelFor(p.xp, t)
  }

  /** `AddPartyXpServerRpc`: add `amount` with unchecked `int` addition, clamp
      the sum at zero (`Mathf.Max`), then recompute the level from the new XP
      alone. */
  function AddPartyXp(p: Party, amount: Int32, t: Thresholds): (r: Party)
    ensures r.xp >= 0
    ensures 1 <= r.level <= 3
    ensures Consistent(r, t)
    ensures InInt32Range(p.xp + amount) ==> r.xp == if p.xp + amount < 0 then 0 else p.xp + amount
  {
    var sum := Wrap(p.xp + amount);
    var xp := if sum < 0 then 0 else sum;
    Party(xp, LevelFor(xp, t))
  }

  /** The level never depends on the level held before: two parties that end
      with the same XP end with the same level. */
  lemma LevelFromXpAlone(p: Party, q: Party, a: Int32, b: Int32, t: Thresholds)
    requires AddPartyXp(p, a, t).xp == AddPartyXp(q, b, t).xp
    ensures AddPartyXp(p, a, t).level == AddPartyXp(q, b, t).level
  {
  }

  /** More XP never means a lower level. */
  lemma LevelMonotone(x: int, y: int, t: Thresholds)
    requires x <= y
    ensures LevelFor(x, t) <= LevelFor(y, t)
  {
  }

  /** A negative amount can take the level down: 70 XP (level 3) minus 50
      leaves 20 XP, level 1 under the default thresholds. */
  lemma LevelCanDrop()
    ensures AddPartyXp(Party(70, 3), -50, DefaultThresholds) == Party(20, 1)
  {
  }

  /** The addition is unchecked: adding 1 to the largest `int` XP wraps to a
      negative sum, which the clamp turns into 0 XP and level 1. */
  lemma OverflowClampsToZero()
    ensures AddPartyXp(Party(INT_MAX, 3), 1, DefaultThresholds) == Party(0, 1)
  {
  }

  /** The controller starts consistent under the default thresholds. */
  lemma InitialConsistent()
    ensures Consistent(Initial, DefaultThresholds)
  {
  }
}

=== FILE: round_manager.dfy ===
/** `RoundManager`: one round's alive set and timer, the per-tick phase
    advance, and the two ways a round ends. It writes the session's phase and
    the score ledger directly, so its operations act on all three. */
module RoundManager {
  import opened Basics
  import opened ScoreManager
  import opened GameSession

  /** The round's own state. `timeLeft` counts whole time units; `Tick`
      receives the elapsed units in place of `Time.deltaTime`. */
  datatype Round = Round(timeLeft: int, alive: set<ClientId>)

  /** The inspector fields `roundTime` and `roundWinBonus`. */
  datatype RoundConfig = RoundConfig(roundTime: int, roundWinBonus: Int32)

  const DefaultRoundConfig := RoundConfig(120, 100)

  /** Everything a round manager reads or writes on the server. */
  datatype World = World(session: Session, round: Round, scores: Ledger)

  /** A world after one entry point, with the effects the session requested. */
  datatype Next = Next(world: World, effects: seq<Effect>)

  /** The phases in which `Update` reaches the round logic: the two
      transitional phases are advanced to `Playing` first. */
  predicate Active(p: Phase) {
    p == LoadingRound || p == Countdown || p == Playing
  }

  /** The id a `foreach ... break` over an alive set of at most one element
      yields, or 0 when the set is empty. */
  function Survivor(alive: set<ClientId>): (v: ClientId)
    requires |alive| <= 1
    ensures alive == {} ==> v == 0
    ensures alive != {} ==> alive == {v}
  {
    if alive == {} then 0
    else
      var v :| v in alive;
      OnlyElement(alive, v);
      v
  }

  /** A set of at most one element that holds `v` is `{v}`. */
  lemma OnlyElement(s: set<ClientId>, v: ClientId)
    requires |s| <= 1 && v in s
    ensures s == {v}
  {
    var rest := s - {v};
    assert s == rest + {v};
    assert |rest| == 0;
  }

  /** `OnNetworkSpawn` of a round: the full timer, every round counter reset,
      and everybody in the client list alive. */
  function SpawnRound(w: World, connected: seq<ClientId>, cfg: RoundConfig): (r: World)
    ensures r.round.timeLeft == cfg.roundTime
    ensures forall id :: id in r.round.alive <==> id in connected
    ensures Ids(r.scores) == Ids(w.scores)
    ensures forall i :: 0 <= i < |r.scores| ==> r.scores[i].roundPoints == 0 && r.scores[i].matchPoints == w.scores[i].matchPoints
    ensures r.session == w.session
  {
    var alive := set i | 0 <= i < |connected| :: connected[i];
    World(w.session, Round(cfg.roundTime, alive), ResetRoundPoints(w.scores))
  }

  /** The round bonus as both end paths pay it: to `winner` unless the
      winner id is 0. */
  function PayBonus(scores: Ledger, winner: ClientId, bonus: Int32): (r: Ledger)
    ensures winner == 0 ==> r == scores
    ensures winner != 0 ==>
              && MatchOf(r, winner) == Wrap(MatchOf(scores, winner) + bonus)
              && RoundOf(r, winner) == Wrap(RoundOf(scores, winner) + bonus)
    ensures forall o :: o != winner ==> MatchOf(r, o) == MatchOf(scores, o) && RoundOf(r, o) == RoundOf(scores, o)
  {
    if winner != 0 then AwardRoundWinBonus(scores, winner, bonus) else scores
  }

  /** Ending the round from `Playing`: the winner is paid, the session moves
      to `Results` and schedules the advance. */
  function Finish(w: World, winner: ClientId, cfg: RoundConfig): Next
    requires w.session.phase == Playing
  {
    var n := NotifyRoundEnded(w.session);
    Next(World(n.session, w.round, PayBonus(w.scores, winner, cfg.roundWinBonus)), n.effects)
  }

  /** `EndRoundByAlive`: only from `Playing`; the survivor, if any and not
      id 0, gets the bonus, and the round-ended notification is always sent. */
  function EndRoundByAlive(w: World, cfg: RoundConfig): (r: Next)
    requires |w.round.alive| <= 1
    ensures w.session.phase != Playing ==> r == Next(w, [])
    ensures w.session.phase == Playing ==>
              && r.world.session == w.session.(phase := Results)
              && r.world.round == w.round
              && r.effects == [ScheduleAdvance]
    ensures w.session.phase == Playing ==>
              r.world.scores == PayBonus(w.scores, Survivor(w.round.alive), cfg.roundWinBonus)
    ensures w.session.phase == Playing && w.round.alive != {} && Survivor(w.round.alive) != 0 ==>
              && w.round.alive == {Survivor(w.round.alive)}
              && MatchOf(r.world.scores, Survivor(w.round.alive))
                 == Wrap(MatchOf(w.scores, Survivor(w.round.alive)) + cfg.roundWinBonus)
    ensures w.round.alive == {} || w.round.alive == {0} ==> r.world.scores == w.scores
    ensures forall o :: o !in w.round.alive ==>
              MatchOf(r.world.scores, o) == MatchOf(w.scores, o) && RoundOf(r.world.scores, o) == RoundOf(w.scores, o)
  {
    if w.session.phase != Playing then Next(w, [])
    else Finish(w, Survivor(w.round.alive), cfg)
  }

  /** Row `i` wins on timeout: it is alive, beats the `int.MinValue` start
      value, no alive row has more round points, and every alive row before
      it has strictly fewer. */
  predicate IsLeader(scores: Ledger, alive: set<ClientId>, i: int) {
    && 0 <= i < |scores|
    && scores[i].clientId in alive
    && scores[i].roundPoints > INT_MIN
    && (forall j :: 0 <= j < |scores| && scores[j].clientId in alive ==> scores[j].roundPoints <= scores[i].roundPoints)
    && (forall j :: 0 <= j < i && scores[j].clientId in alive ==> scores[j].roundPoints < scores[i].roundPoints)
  }

  /** No alive row beats the `int.MinValue` start value. */
  predicate NoLeader(scores: Ledger, alive: set<ClientId>) {
    forall j :: 0 <= j < |scores| && scores[j].clientId in alive ==> scores[j].roundPoints == INT_MIN
  }

  /** At most one row is the leader. */
  lemma LeaderUnique(scores: Ledger, alive: set<ClientId>, i: int, k: int)
    requires IsLeader(scores, alive, i) && IsLeader(scores, alive, k)
    ensures i == k
  {
  }

  /** The scan of `EndRoundByPointsOrAlive` over the ledger in order, keeping
      the row with strictly the most round points among alive rows. */
  function Leader(scores: Ledger, alive: set<ClientId>): (r: Option<nat>)
    ensures r.Some? ==> IsLeader(scores, alive, r.value)
    ensures r.None? ==> NoLeader(scores, alive)
  {
    if scores == [] then None
    else
      var n := |scores| - 1;
      var prev := Leader(scores[..n], alive);
      var bestPoints := match prev case Some(i) => scores[i].roundPoints case None => INT_MIN;
      if scores[n].clientId in alive && scores[n].roundPoints > bestPoints then Some(n) else prev
  }

  /** The timeout winner's id: the leader's client id, or 0 when there is no
      leader. */
  function TimeoutWinner(scores: Ledger, alive: set<ClientId>): (v: ClientId)
    ensures forall i :: IsLeader(scores, alive, i) ==> v == scores[i].clientId
    ensures NoLeader(scores, alive) ==> v == 0
    ensures v != 0 ==> v in alive
  {
    match Leader(scores, alive)
    case Some(i) =>
      assert forall k :: IsLeader(scores, alive, k) ==> k == i by {
        forall k | IsLeader(scores, alive, k) ensures k == i {
          LeaderUnique(scores, alive, i, k);
        }
      }
      scores[i].clientId
    case None =>
      assert forall k :: !IsLeader(scores, alive, k);
      0
  }

  /** `EndRoundByPointsOrAlive`: only from `Playing`; the timeout winner, if
      its id is not 0, gets the bonus, and the round-ended notification is
      always sent. */
  function EndRoundByPointsOrAlive(w: World, cfg: RoundConfig): (r: Next)
    ensures w.session.phase != Playing ==> r == Next(w, [])
    ensures w.session.phase == Playing ==>
              && r.world.session == w.session.(phase := Results)
              && r.world.round == w.round
              && r.effects == [ScheduleAdvance]
    ensures w.session.phase == Playing ==>
              r.world.scores == PayBonus(w.scores, TimeoutWinner(w.scores, w.round.alive), cfg.roundWinBonus)
    ensures forall o :: o != TimeoutWinner(w.scores, w.round.alive) ==>
              MatchOf(r.world.scores, o) == MatchOf(w.scores, o) && RoundOf(r.world.scores, o) == RoundOf(w.scores, o)
    ensures NoLeader(w.scores, w.round.alive) ==> r.world.scores == w.scores
    ensures forall i :: IsLeader(w.scores, w.round.alive, i) && w.scores[i].clientId == 0 ==> r.world.scores == w.scores
    ensures forall o :: o !in w.round.alive ==>
              MatchOf(r.world.scores, o) == MatchOf(w.scores, o) && RoundOf(r.world.scores, o) == RoundOf(w.scores, o)
  {
    if w.session.phase != Playing then Next(w, [])
    else Finish(w, TimeoutWinner(w.scores, w.round.alive), cfg)
  }

  /** `Update` on the server: advance `LoadingRound` to `Countdown` and
      `Countdown` to `Playing` in the same call; outside `Playing` stop there;
      otherwise run the timer down, then end the round by the alive count
      first and by the timer second. */
  function Tick(w: World, elapsed: nat, cfg: RoundConfig): (r: Next)
    ensures !Active(w.session.phase) ==> r == Next(w, [])
    ensures Active(w.session.phase) ==> r.world.round == w.round.(timeLeft := w.round.timeLeft - elapsed)
    ensures r.world.session.roundIndex == w.session.roundIndex && r.world.session.ready == w.session.ready
    ensures Active(w.session.phase) && |w.round.alive| <= 1 ==>
              && r.world.session.phase == Results
              && r.effects == [ScheduleAdvance]
              && (Survivor(w.round.alive) == 0 ==> r.world.scores == w.scores)
              && (Survivor(w.round.alive) != 0 ==>
                    r.world.scores == AwardRoundWinBonus(w.scores, Survivor(w.round.alive), cfg.roundWinBonus))
    ensures Active(w.session.phase) && |w.round.alive| >= 2 && w.round.timeLeft - elapsed <= 0 ==>
              && r.world.session.phase == Results
              && r.effects == [ScheduleAdvance]
              && r.world.scores == PayBonus(w.scores, TimeoutWinner(w.scores, w.round.alive), cfg.roundWinBonus)
    ensures Active(w.session.phase) && |w.round.alive| >= 2 && w.round.timeLeft - elapsed > 0 ==>
              && r.world.session.phase == Playing
              && r.world.scores == w.scores
              && r.effects == []
  {
    var p1 := if w.session.phase == LoadingRound then Countdown else w.session.phase;
    var p2 := if p1 == Countdown then Playing else p1;
    var w1 := w.(session := w.session.(phase := p2));
    if p2 != Playing then Next(w1, [])
    else
      var w2 := w1.(round := w1.round.(timeLeft := w1.round.timeLeft - elapsed));
      if |w2.round.alive| <= 1 then EndRoundByAlive(w2, cfg)
      else if w2.round.timeLeft <= 0 then EndRoundByPointsOrAlive(w2, cfg)
      else Next(w2, [])
  }

  /** `NotifyEliminated`: drop the victim from the alive set, in any phase,
      and end the round at once when at most one player is left. */
  function NotifyEliminated(w: World, victim: ClientId, cfg: RoundConfig): (r: Next)
    ensures victim !in r.world.round.alive
    ensures forall o :: o != victim ==> (o in r.world.round.alive <==> o in w.round.alive)
    ensures r.world.round.timeLeft == w.round.timeLeft
    ensures w.session.phase == Playing && |w.round.alive - {victim}| <= 1 ==>
              && r.world.session == w.session.(phase := Results)
              && r.effects == [ScheduleAdvance]
              && r.world.scores == PayBonus(w.scores, Survivor(w.round.alive - {victim}), cfg.roundWinBonus)
    ensures w.session.phase != Playing || |w.round.alive - {victim}| >= 2 ==>
              r.world.session == w.session && r.world.scores == w.scores && r.effects == []
  {
    var w1 := w.(round := w.round.(alive := w.round.alive - {victim}));
    if |w1.round.alive| <= 1 then EndRoundByAlive(w1, cfg) else Next(w1, [])
  }

  /** Each elimination of an alive player shrinks the alive set by exactly
      one; eliminating someone already out changes nothing at all. */
  lemma EliminationCounts(w: World, victim: ClientId, cfg: RoundConfig)
    ensures victim in w.round.alive ==> |NotifyEliminated(w, victim, cfg).world.round.alive| == |w.round.alive| - 1
    ensures victim !in w.round.alive && |w.round.alive| >= 2 ==> NotifyEliminated(w, victim, cfg) == Next(w, [])
  {
    var r := NotifyEliminated(w, victim, cfg);
    assert r.world.round.alive == w.round.alive - {victim};
    if victim !in w.round.alive {
      assert w.round.alive - {victim} == w.round.alive;
    }
  }

  /** Repeating an elimination is a no-op: the second call changes nothing
      and requests nothing, whatever the first one did. */
  lemma EliminationIdempotent(w: World, victim: ClientId, cfg: RoundConfig)
    ensures var once := NotifyEliminated(w, victim, cfg).world;
            NotifyEliminated(once, victim, cfg) == Next(once, [])
  {
    var once := NotifyEliminated(w, victim, cfg).world;
    assert once.round.alive - {victim} == once.round.alive;
    if |once.round.alive| <= 1 {
      assert once.session.phase != Playing;
    }
  }

  /** While the session shows `Results`, neither a tick nor an elimination
      nor either end path pays anything or moves the phase again. Once the
      next round is loading, a round manager that has not been respawned can
      end its stale round again (see `MatchFlow.StaleRoundPaysAgain`). */
  lemma NoSecondBonus(w: World, elapsed: nat, victim: ClientId, cfg: RoundConfig)
    requires w.session.phase == Results
    ensures Tick(w, elapsed, cfg) == Next(w, [])
    ensures NotifyEliminated(w, victim, cfg).world.scores == w.scores
    ensures NotifyEliminated(w, victim, cfg).world.session == w.session
    ensures EndRoundByPointsOrAlive(w, cfg) == Next(w, [])
    ensures |w.round.alive| <= 1 ==> EndRoundByAlive(w, cfg) == Next(w, [])
  {
  }

  /** Either end path, taken from `Playing`, leaves the session in
      `Results`, so the next call to either path does nothing. `Update`
      reaches the alive path with at most one client alive and the timeout
      path with two or more; after the timeout path the alive path can
      still be reached by eliminations, so both are stated for it. */
  lemma EndsOnce(w: World, cfg: RoundConfig)
    requires w.session.phase == Playing
    ensures |w.round.alive| <= 1 ==>
              var a := EndRoundByAlive(w, cfg).world;
              EndRoundByAlive(a, cfg) == Next(a, []) && EndRoundByPointsOrAlive(a, cfg) == Next(a, [])
    ensures var b := EndRoundByPointsOrAlive(w, cfg).world;
            && EndRoundByPointsOrAlive(b, cfg) == Next(b, [])
            && (|b.round.alive| <= 1 ==> EndRoundByAlive(b, cfg) == Next(b, []))
  {
  }

  /** Until the round manager first runs, `LoadingRound` and `Countdown` are
      the same as `Playing`: a frame from either passes straight into play
      and then behaves exactly as a frame of `Playing`. */
  lemma TransitionalPhasesPlay(w: World, elapsed: nat, cfg: RoundConfig)
    requires w.session.phase == LoadingRound || w.session.phase == Countdown
    ensures Tick(w, elapsed, cfg) == Tick(w.(session := w.session.(phase := Playing)), elapsed, cfg)
  {
  }

  /** One tick that starts in `LoadingRound` with a full round ahead passes
      through `Countdown` and leaves the session in `Playing`. */
  lemma LoadingReachesPlayingInOneTick(w: World, elapsed: nat, cfg: RoundConfig)
    requires w.session.phase == LoadingRound
    requires |w.round.alive| >= 2 && w.round.timeLeft > elapsed
    ensures Tick(w, elapsed, cfg).world.session == w.session.(phase := Playing)
    ensures Tick(w, elapsed, cfg).effects == []
  {
  }

  /** The alive check comes first: with one survivor who never scored (no
      ledger row), an expired timer still pays the survivor, where the
      timeout path alone would have paid nobody. */
  lemma AliveEndTakesPrecedence()
    ensures var w := World(Session(Playing, 0, {}), Round(0, {7}), []);
            && Tick(w, 1, DefaultRoundConfig).world.scores == [PlayerScore(7, 100, 100)]
            && EndRoundByPointsOrAlive(w, DefaultRoundConfig).world.scores == []
  {
    var w := World(Session(Playing, 0, {}), Round(0, {7}), []);
    assert Survivor({7}) == 7;
    assert Leader([], {7}) == None;
  }

  /** Client id 0 is never paid: when the host's row leads on timeout, no
      one receives the bonus, not even the runner-up. */
  lemma HostLeaderPaysNobody()
    ensures var w := World(Session(Playing, 0, {}), Round(0, {0, 5}),
                           [PlayerScore(0, 0, 10), PlayerScore(5, 0, 3)]);
            Tick(w, 1, DefaultRoundConfig).world.scores == w.scores
  {
    var scores := [PlayerScore(0, 0, 10), PlayerScore(5, 0, 3)];
    assert IsLeader(scores, {0, 5}, 0);
  }

  /** Ties go to the row that comes first in the ledger. */
  lemma TieGoesToFirstRow()
    ensures TimeoutWinner([PlayerScore(4, 0, 8), PlayerScore(9, 0, 8)], {4, 9}) == 4
  {
    assert IsLeader([PlayerScore(4, 0, 8), PlayerScore(9, 0, 8)], {4, 9}, 0);
  }
}

=== FILE: score_manager.dfy ===
/** The score ledger of `ScoreManager`: an ordered list of
    `(ClientId, MatchPoints, RoundPoints)` rows, mutated only by the server. */
module ScoreManager {
  import opened Basics

  /** One ledger row (the C# struct `PlayerScore`). */
  datatype PlayerScore = PlayerScore(clientId: ClientId, matchPoints: Int32, roundPoints: Int32)

  type Ledger = seq<PlayerScore>

  /** `PlayerScore.Equals`: two rows are equal when they carry the same
      client id, whatever their points. */
  predicate SameClient(a: PlayerScore, b: PlayerScore) {
    a.clientId == b.clientId
  }

  lemma SameClientIgnoresPoints(a: PlayerScore, b: PlayerScore)
    ensures SameClient(a, b) <==> a.clientId == b.clientId
    ensures SameClient(a, a.(matchPoints := b.matchPoints, roundPoints := b.roundPoints))
  {
  }

  /** A fresh row: both counters zero. */
  function Zero(id: ClientId): PlayerScore {
    PlayerScore(id, 0, 0)
  }

  /** The client ids of the ledger, in ledger order. */
  function Ids(l: Ledger): (ids: seq<ClientId>)
    ensures |ids| == |l|
    ensures forall i :: 0 <= i < |l| ==> ids[i] == l[i].clientId
  {
    seq(|l|, i requires 0 <= i < |l| => l[i].clientId)
  }

  /** No two entries of `ids` are equal. */
  predicate Distinct(ids: seq<ClientId>) {
    forall i, j :: 0 <= i < j < |ids| ==> ids[i] != ids[j]
  }

  /** The ledger holds at most one row per client. */
  predicate WellFormed(l: Ledger) {
    Distinct(Ids(l))
  }

  /** `j` is the first row of `l` that belongs to `id`. */
  predicate FirstOf(l: Ledger, id: ClientId, j: int) {
    && 0 <= j < |l|
    && l[j].clientId == id
    && forall k :: 0 <= k < j ==> l[k].clientId != id
  }

  /** The front-to-back search the ledger operations share: the index of the
      first row of `id`, if any. */
  function Find(l: Ledger, id: ClientId): (r: Option<nat>)
    ensures r.Some? ==> FirstOf(l, id, r.value)
    ensures r.None? <==> id !in Ids(l)
  {
    if l == [] then None
    else if l[0].clientId == id then Some(0)
    else match Find(l[1..], id)
      case Some(k) => Some(k + 1)
      case None => None
  }

  /** Match points of `id` as a reader of the ledger sees them: those of its
      first row, or 0 when it has none. */
  function MatchOf(l: Ledger, id: ClientId): int {
    match Find(l, id)
    case Some(i) => l[i].matchPoints
    case None => 0
  }

  /** Round points of `id`, read the same way. */
  function RoundOf(l: Ledger, id: ClientId): int {
    match Find(l, id)
    case Some(i) => l[i].roundPoints
    case None => 0
  }

  /** `ScoreManager.OnNetworkSpawn`: clear the list and add one zero row per
      connected client, in the order the client list gives. */
  function Init(connected: seq<ClientId>): (r: Ledger)
    ensures Ids(r) == connected
    ensures forall i :: 0 <= i < |r| ==> r[i].matchPoints == 0 && r[i].roundPoints == 0
    ensures WellFormed(r) <==> Distinct(connected)
  {
    if connected == [] then []
    else Init(connected[..|connected| - 1]) + [Zero(connected[|connected| - 1])]
  }

  /** `ScoreManager.OnClientConnected`: make sure `id` has a row, appending a
      zero row when it has none. */
  function EnsureEntry(l: Ledger, id: ClientId): (r: Ledger)
    ensures id in Ids(r)
    ensures id in Ids(l) ==> r == l
    ensures id !in Ids(l) ==> |r| == |l| + 1 && r[..|l|] == l && r[|l|] == Zero(id)
    ensures WellFormed(l) ==> WellFormed(r)
  {
    match Find(l, id)
    case Some(_) => l
    case None =>
      var r := l + [Zero(id)];
      assert Ids(r)[|l|] == id;
      r
  }

  /** `ScoreManager.ResetRoundPoints`: every round counter back to zero. */
  function ResetRoundPoints(l: Ledger): (r: Ledger)
    ensures Ids(r) == Ids(l)
    ensures forall i :: 0 <= i < |r| ==> r[i].roundPoints == 0 && r[i].matchPoints == l[i].matchPoints
  {
    seq(|l|, i requires 0 <= i < |l| => l[i].(roundPoints := 0))
  }

  /** A row after `amount` is added to both of its counters (unchecked `+=`). */
  function Credit(s: PlayerScore, amount: Int32): PlayerScore {
    s.(roundPoints := Wrap(s.roundPoints + amount), matchPoints := Wrap(s.matchPoints + amount))
  }

  /** `ScoreManager.AddPoints`: credit the first row of `id`; when `id` has no
      row yet, append one whose both counters equal `amount`. */
  function AddPoints(l: Ledger, id: ClientId, amount: Int32): (r: Ledger)
    ensures |r| == if id in Ids(l) then |l| else |l| + 1
    ensures forall j :: 0 <= j < |l| ==> r[j] == if FirstOf(l, id, j) then Credit(l[j], amount) else l[j]
    ensures id !in Ids(l) ==> r[|l|] == PlayerScore(id, amount, amount)
    ensures Ids(r) == if id in Ids(l) then Ids(l) else Ids(l) + [id]
    ensures WellFormed(l) ==> WellFormed(r)
  {
    match Find(l, id)
    case Some(i) => l[i := Credit(l[i], amount)]
    case None => l + [PlayerScore(id, amount, amount)]
  }

  /** `ScoreManager.AwardRoundWinBonus`: the winner's match and round points
      both grow by `bonus`; every other client reads the same points as before. */
  function AwardRoundWinBonus(l: Ledger, winner: ClientId, bonus: Int32): (r: Ledger)
    ensures MatchOf(r, winner) == Wrap(MatchOf(l, winner) + bonus)
    ensures RoundOf(r, winner) == Wrap(RoundOf(l, winner) + bonus)
    ensures forall id :: id != winner ==> MatchOf(r, id) == MatchOf(l, id) && RoundOf(r, id) == RoundOf(l, id)
  {
    AddPointsReadBack(l, winner, bonus);
    AddPoints(l, winner, bonus)
  }

  /** The bonus is paid exactly as any other points are. */
  lemma AwardIsAddPoints(l: Ledger, winner: ClientId, bonus: Int32)
    ensures AwardRoundWinBonus(l, winner, bonus) == AddPoints(l, winner, bonus)
  {
  }

  /** Read through `MatchOf`/`RoundOf`, `AddPoints` credits `id` and nobody else. */
  lemma AddPointsReadBack(l: Ledger, id: ClientId, amount: Int32)
    ensures MatchOf(AddPoints(l, id, amount), id) == Wrap(MatchOf(l, id) + amount)
    ensures RoundOf(AddPoints(l, id, amount), id) == Wrap(RoundOf(l, id) + amount)
    ensures forall o :: o != id ==>
              MatchOf(AddPoints(l, id, amount), o) == MatchOf(l, o)
              && RoundOf(AddPoints(l, id, amount), o) == RoundOf(l, o)
  {
    var r := AddPoints(l, id, amount);
    forall o | o != id
      ensures Find(r, o) == Find(l, o)
    {
      FindUnaffected(l, r, id, o);
    }
    match Find(l, id)
    case Some(i) =>
      assert FirstOf(r, id, i);
    case None =>
      assert FirstOf(r, id, |l|);
  }

  /** Searching for `o` finds the same row in two ledgers whose ids agree on
      every position other than those holding `id`. */
  lemma FindUnaffected(l: Ledger, r: Ledger, id: ClientId, o: ClientId)
    requires o != id
    requires |r| == |l| || |r| == |l| + 1
    requires forall j :: 0 <= j < |l| ==> r[j].clientId == l[j].clientId
    requires |r| == |l| + 1 ==> r[|l|].clientId == id
    ensures Find(r, o) == Find(l, o)
  {
    match Find(l, o)
    case Some(i) =>
      assert FirstOf(r, o, i);
      assert Ids(r)[i] == o;
      FirstOfUnique(r, o, i, Find(r, o).value);
    case None =>
      assert o !in Ids(r);
  }

  /** A client has at most one first row. */
  lemma FirstOfUnique(l: Ledger, id: ClientId, i: int, j: int)
    requires FirstOf(l, id, i) && FirstOf(l, id, j)
    ensures i == j
  {
  }

  /** Each entry of a run of score awards (a dance-zone tick, a round bonus). */
  datatype Award = Award(id: ClientId, amount: Int32)

  /** What an award adds to `id`'s points: its amount when it is for `id`,
      nothing otherwise. */
  function Share(a: Award, id: ClientId): int {
    if a.id == id then a.amount else 0
  }

  /** The exact sum of the amounts awarded to `id`. */
  function TotalFor(awards: seq<Award>, id: ClientId): int {
    if awards == [] then 0
    else TotalFor(awards[..|awards| - 1], id) + Share(awards[|awards| - 1], id)
  }

  /** A ledger after one award. */
  function Applied(l: Ledger, a: Award): Ledger {
    AddPoints(l, a.id, a.amount)
  }

  /** `trace[k + 1]` is `trace[k]` after the `k`-th award. */
  predicate IsAwardTrace(trace: seq<Ledger>, awards: seq<Award>) {
    && |trace| == |awards| + 1
    && forall k {:trigger Applied(trace[k], awards[k])} :: 0 <= k < |awards| ==> trace[k + 1] == Applied(trace[k], awards[k])
  }

  /** One award moves `id`'s match points by the award's share for `id`. */
  lemma AwardStep(l: Ledger, a: Award, id: ClientId)
    ensures MatchOf(AddPoints(l, a.id, a.amount), id) == Wrap(MatchOf(l, id) + Share(a, id))
  {
    AddPointsReadBack(l, a.id, a.amount);
    if a.id != id {
      match Find(l, id)
      case Some(i) =>
      case None =>
    }
  }

  /** The match points of `id` in each ledger of a trace. */
  function MatchSeries(trace: seq<Ledger>, id: ClientId): (m: seq<int>)
    ensures |m| == |trace|
    ensures forall k :: 0 <= k < |trace| ==> m[k] == MatchOf(trace[k], id)
  {
    seq(|trace|, k requires 0 <= k < |trace| => MatchOf(trace[k], id))
  }

  /** The `k`-th step of a trace, read back for one client. */
  lemma TraceStep(trace: seq<Ledger>, awards: seq<Award>, k: nat, id: ClientId)
    requires IsAwardTrace(trace, awards) && k < |awards|
    ensures MatchSeries(trace, id)[k + 1] == Wrap(MatchSeries(trace, id)[k] + Share(awards[k], id))
  {
    assert trace[k + 1] == Applied(trace[k], awards[k]);
    AwardStep(trace[k], awards[k], id);
  }

  /** Every step of a trace, read back for one client. */
  lemma TraceReadBack(trace: seq<Ledger>, awards: seq<Award>, id: ClientId)
    requires IsAwardTrace(trace, awards)
    ensures forall k {:trigger awards[k]} :: 0 <= k < |awards| ==>
              MatchSeries(trace, id)[k + 1] == Wrap(MatchSeries(trace, id)[k] + Share(awards[k], id))
  {
    forall k | 0 <= k < |awards|
      ensures MatchSeries(trace, id)[k + 1] == Wrap(MatchSeries(trace, id)[k] + Share(awards[k], id))
    {
      TraceStep(trace, awards, k, id);
    }
  }

  /** A run of unchecked additions adds up to the wrapped exact total. */
  lemma {:induction false} WrapChain(m: seq<int>, awards: seq<Award>, id: ClientId)
    requires |m| == |awards| + 1 && InInt32Range(m[0])
    requires forall k {:trigger awards[k]} :: 0 <= k < |awards| ==> m[k + 1] == Wrap(m[k] + Share(awards[k], id))
    ensures m[|awards|] == Wrap(m[0] + TotalFor(awards, id))
  {
    if awards != [] {
      var n := |awards| - 1;
      var x, d := m[0] + TotalFor(awards[..n], id), Share(awards[n], id);
      assert m[n] == Wrap(x) by {
        var init, prefix := awards[..n], m[..n + 1];
        forall k | 0 <= k < n
          ensures prefix[k + 1] == Wrap(prefix[k] + Share(init[k], id))
        {
          assert init[k] == awards[k];
        }
        WrapChain(prefix, init, id);
      }
      assert m[n + 1] == Wrap(m[n] + d);
      WrapAddAbsorb(x, d);
    }
  }

  /** A client's match points are its starting points plus everything it was
      ever awarded, reduced to the 32-bit range. */
  lemma MatchPointsAccumulate(trace: seq<Ledger>, awards: seq<Award>, id: ClientId)
    requires IsAwardTrace(trace, awards)
    ensures MatchOf(trace[|awards|], id) == Wrap(MatchOf(trace[0], id) + TotalFor(awards, id))
  {
    var m := MatchSeries(trace, id);
    assert m[|awards|] == Wrap(m[0] + TotalFor(awards, id)) by {
      TraceReadBack(trace, awards, id);
      WrapChain(m, awards, id);
    }
    assert m[0] == MatchOf(trace[0], id);
    assert m[|awards|] == MatchOf(trace[|awards|], id);
  }

  /** Ensuring an entry twice is the same as ensuring it once. */
  lemma EnsureEntryIdempotent(l: Ledger, id: ClientId)
    ensures EnsureEntry(EnsureEntry(l, id), id) == EnsureEntry(l, id)
  {
  }

  /** Resetting round points twice is the same as resetting once. */
  lemma ResetRoundPointsIdempotent(l: Ledger)
    ensures ResetRoundPoints(ResetRoundPoints(l)) == ResetRoundPoints(l)
  {
  }
}
